=== FILE: README.md ===
# BaseRequest: request configuration and result capture

A Dafny model of the deterministic core of `com.ls.http.base.BaseRequest`, the request object of the
d8androidsdk HTTP layer that sits on top of Volley's `StringRequest`. The request object holds:
- the request and response formats;
- explicit headers;
- GET and POST parameter maps;
- an object to post;
- a `ResponseData` result record that the network hooks fill in place.

The model is a state record `BaseRequest.Request` plus pure functions, one per Java method, from the old
state to the new one. A Java method that can throw returns an `Outcome`, which is either `Returned(v)`
or `Threw(fault)`. The model keeps the source's `NullPointerException` paths:
- `addRequestHeader` and `addRequestHeaders` throw on a null header map.
- `putAll(null)` throws.
- The constructor throws on every call, as written (see Findings).

The code that `BaseRequest` calls but does not define is passed in as records of total functions
(`Collaborators`):
- `Transport`: Volley's inherited `super` behaviour.
- `Codecs`: the `Handler` request encoder and response decoder for each format.
- `UriBuilder`: `android.net.Uri.Builder`.

Volley's `getBody()` encodes whatever the object's own (overridden) `getParams()` returns, so the default
body is modelled as a function of `GetParams`.
`HashMap` iteration order is an explicit argument `order`. It must list each key once
(`Enumerates`). `JavaModel.PutAllIsOrderIndependent` shows that `putAll` done entry by entry in any such
order equals map override. That is why the bulk adders are modelled as override.

Modules:
- `JavaModel` (java_model.dfy): null references, exceptions, bytes, string maps, and `putAll`.
- `Formats` (formats.dfy): `RequestMethod`, `RequestFormat`, `ResponseFormat`, `toResponse`.
- `Collaborators` (collaborators.dfy): network response, Volley error, transport, codecs, URI builder.
- `BaseRequest` (base_request.dfy): the state record and every modelled method.
- `BaseRequestLemmas` (base_request_lemmas.dfy): properties that relate several calls.

The model follows the code where it departs from what a reader of the interface might expect:
- An unsupported charset in `getBody` yields an empty body, not an error.
- The decoder's result is discarded, so `ResponseData.data` is never written.
- `parseNetworkError` copies status and headers even on a cancelled request.
- Cancellation stops `parseNetworkResponse` from writing. `parseNetworkError` still overwrites the
  error, and the status and headers of an attached response, on a cancelled request
  (`CancelledRequestStillTakesLaterError`). Nothing guards against a second delivery
  (`LaterResponseReplacesEarlier`).
- The Accept header is never seeded, and the body content type ignores the value the encoder's content-type call returns. Only an exception from that call gets through (Findings).

## Model

| member | source | states |
|---|---|---|
| `Formats.ResponseValueOf` | library/src/main/java/com/ls/http/base/BaseRequest.java:72-74 | `valueOf(name)` returns the response format whose name it is given. Any name that is not one of the constants gives `Threw(IllegalArgument)`. |
| `Formats.ToResponse` | library/src/main/java/com/ls/http/base/BaseRequest.java:59-67 | Total. MULTIPART gives JSON. Every other request format gives the response format with the same name. |
| `BaseRequestLemmas.ToResponseIsOntoAndNameKeeping` | library/src/main/java/com/ls/http/base/BaseRequest.java:59-67 | Every response format is reached from the request format of the same name. Away from MULTIPART the mapping is one-to-one. MULTIPART and JSON share a response format. |
| `BaseRequest.InitRequestHeaders` | library/src/main/java/com/ls/http/base/BaseRequest.java:150-153 | A null response handler throws `NullPointerException`. Otherwise the result is a fresh map holding only the handler's Accept value. |
| `BaseRequest.ConstructAsWritten` | library/src/main/java/com/ls/http/base/BaseRequest.java:133-143 | With the statements in source order, every construction throws `NullPointerException`. |
| `BaseRequest.Construct` | library/src/main/java/com/ls/http/base/BaseRequest.java:133-143 | Corrected order. The formats, URL and specifier are stored. The only header is Accept, holding the response format's value. There are no parameters, no object, no charset, no cancellation, and an empty result. |
| `BaseRequest.NewRequestAsWritten` | library/src/main/java/com/ls/http/base/BaseRequest.java:118-120 | As written, the public constructor forwards to the protected one, so every call throws `NullPointerException`. |
| `BaseRequest.NewRequest` | library/src/main/java/com/ls/http/base/BaseRequest.java:118-120 | Corrected (see Findings): built on `Construct`. The response format follows `toResponse`: JSON for MULTIPART, otherwise the same name. The Accept header matches that response format. |
| `BaseRequest.SetRequestHeaders` | library/src/main/java/com/ls/http/base/BaseRequest.java:256-258 | The header map is replaced, null included. No other field changes. |
| `BaseRequest.AddRequestHeader` | library/src/main/java/com/ls/http/base/BaseRequest.java:264-266 | Throws if and only if the header map is null. Otherwise the key maps to the value, every other header is kept, and no other field changes. |
| `BaseRequest.AddRequestHeaders` | library/src/main/java/com/ls/http/base/BaseRequest.java:260-262 | Throws if and only if the header map or the argument is null. Otherwise the headers are the old ones overridden by the argument. |
| `BaseRequest.GetHeaders` | library/src/main/java/com/ls/http/base/BaseRequest.java:243-250 | The keys are those of the defaults and of the explicit headers together. An explicit value wins on a collision, and a default survives elsewhere. |
| `BaseRequestLemmas.ExplicitHeaderWins` | library/src/main/java/com/ls/http/base/BaseRequest.java:243-250 | A header added with `addRequestHeader` is sent with that value, whatever the transport's default is. |
| `BaseRequestLemmas.ConstructedRequestSendsAcceptHeader` | library/src/main/java/com/ls/http/base/BaseRequest.java:150-153 | With the corrected constructor, the sent headers carry the response format's Accept value over any default. |
| `BaseRequest.PutOrRemove` | library/src/main/java/com/ls/http/base/BaseRequest.java:295-304 | A null map is replaced by a fresh one. A value is put. A null value removes the key. Every other key is unchanged. |
| `BaseRequest.AddAll` | library/src/main/java/com/ls/http/base/BaseRequest.java:287-293 | A null field adopts the argument, null included. A null argument with an existing map throws. Otherwise the old map is overridden by the argument. |
| `BaseRequest.SetGetParameters` | library/src/main/java/com/ls/http/base/BaseRequest.java:364-366 | The GET map is replaced. No other field changes. |
| `BaseRequest.AddGetParameter` | library/src/main/java/com/ls/http/base/BaseRequest.java:376-385 | The map exists afterwards. A non-null value is stored under the key, and a null value leaves the key absent. All other keys and fields are unchanged. |
| `BaseRequest.AddGetParameters` | library/src/main/java/com/ls/http/base/BaseRequest.java:368-374 | With no map, the argument is adopted. An existing map with a null argument throws. Otherwise argument entries win and other keys are kept. |
| `BaseRequestLemmas.PutThenRemoveRestores` | library/src/main/java/com/ls/http/base/BaseRequest.java:295-304 | In the shared put-or-remove step, putting a key the map lacked and then removing it with a null value gives back the map. |
| `BaseRequestLemmas.NullValueUndoesPut` | library/src/main/java/com/ls/http/base/BaseRequest.java:376-385 | For the GET and the POST map alike, when the map exists, putting a new key and then removing it with a null value gives back the original request. From a null map the same two calls leave an empty map, so this needs the map to exist. |
| `BaseRequest.SetPostParameters` | library/src/main/java/com/ls/http/base/BaseRequest.java:283-285 | The POST map is replaced. No other field changes. |
| `BaseRequest.AddPostParameter` | library/src/main/java/com/ls/http/base/BaseRequest.java:295-304 | The map exists afterwards. A non-null value is stored under the key, and a null value leaves the key absent. All other keys and fields are unchanged. |
| `BaseRequest.AddPostParameters` | library/src/main/java/com/ls/http/base/BaseRequest.java:287-293 | With no map, the argument is adopted. An existing map with a null argument throws. Otherwise argument entries win and other keys are kept. |
| `BaseRequest.GetParams` | library/src/main/java/com/ls/http/base/BaseRequest.java:271-277 | Returns the explicit POST map when one exists, otherwise the transport default. |
| `BaseRequest.SetObjectToPost` | library/src/main/java/com/ls/http/base/BaseRequest.java:339-342 | The body object is replaced. No other field changes. |
| `BaseRequest.SetDefaultCharset` | library/src/main/java/com/ls/http/base/BaseRequest.java:394-396 | The charset is replaced. No other field changes. |
| `BaseRequest.GetBody` | library/src/main/java/com/ls/http/base/BaseRequest.java:310-322 | Outside `EncodesObject` (an object is set and no POST map exists), the result is the transport's body for `getParams()`. Inside it, the result is the encoded object. An unsupported charset gives an empty body, and any other encoder exception propagates. |
| `BaseRequestLemmas.PostParametersOverrideBodyObject` | library/src/main/java/com/ls/http/base/BaseRequest.java:310-322 | Once a POST map is set or a POST parameter added, the body is the transport's encoding of that map, even with an object set. |
| `BaseRequestLemmas.BodyIgnoresEncoderUnlessEncoding` | library/src/main/java/com/ls/http/base/BaseRequest.java:310-322 | Outside `EncodesObject`, the body does not depend on the codecs. |
| `BaseRequestLemmas.BodyIgnoresTransportWhenEncoding` | library/src/main/java/com/ls/http/base/BaseRequest.java:310-322 | Inside `EncodesObject`, the body does not depend on the transport. |
| `BaseRequestLemmas.UnsupportedCharsetYieldsEmptyBody` | library/src/main/java/com/ls/http/base/BaseRequest.java:313-318 | An unsupported-encoding failure of the encoder returns a zero-length body, not an error. |
| `BaseRequest.GetBodyContentType` | library/src/main/java/com/ls/http/base/BaseRequest.java:326-333 | Without an object, the transport's default. With an object set, the encoder's content-type call (line 328) is made. An exception from it propagates. Otherwise its value is dropped and the transport's default is returned. |
| `BaseRequest.IntendedBodyContentType` | library/src/main/java/com/ls/http/base/BaseRequest.java:326-333 | Corrected: when the encoder produces the body (an object set and no POST map, the condition of `getBody`), the encoder's content type, or its exception. Otherwise the default, which labels the form body that `getBody` then sends. |
| `BaseRequestLemmas.ContentTypeIgnoresBodyObject` | library/src/main/java/com/ls/http/base/BaseRequest.java:326-333 | Whenever it returns, the content type with a body object set, under any codecs, equals the one without an object. |
| `BaseRequestLemmas.ContentTypeMislabelsEncodedBody` | library/src/main/java/com/ls/http/base/BaseRequest.java:326-333 | When the encoder produces the body and names a type other than the default, the content type is the default as written and the encoder's type as intended, so the two differ. |
| `BaseRequestLemmas.JsonBodyLabelledAsForm` | library/src/main/java/com/ls/http/base/BaseRequest.java:326-333 | There is a JSON request with a body object whose content type is `application/x-www-form-urlencoded; charset=UTF-8` as written and `application/json; charset=UTF-8` as intended. |
| `BaseRequest.GetUrl` | library/src/main/java/com/ls/http/base/BaseRequest.java:347-358 | With no GET map or an empty one, the result is the base URL unchanged. |
| `BaseRequestLemmas.QueryPairsFollowOrder` | library/src/main/java/com/ls/http/base/BaseRequest.java:350-352 | The appended pairs are the iteration's keys in order, each with its map value. |
| `BaseRequestLemmas.GetUrlAppendsEveryParameterOnce` | library/src/main/java/com/ls/http/base/BaseRequest.java:347-358 | With a non-empty map, the URL is the base URL with one `appendQueryParameter` per pair. The pairs are exactly the map's entries, and no key appears twice. |
| `BaseRequestLemmas.AddedGetParameterIsAppended` | library/src/main/java/com/ls/http/base/BaseRequest.java:347-358 | After `addGetParameter(k, v)`, `getUrl` appends `(k, v)` and every earlier parameter under another key. |
| `BaseRequestLemmas.GetUrlReadsOnlyUrlAndGetParameters` | library/src/main/java/com/ls/http/base/BaseRequest.java:347-358 | Two requests with the same base URL and GET parameters, iterated in the same order, give the same URL. Repeated calls on an unchanged request agree. Equal maps iterated in different orders (possible in a `HashMap`, where insertion order breaks hash collisions) can give different query strings. |
| `BaseRequestLemmas.OtherOperationsKeepUrl` | library/src/main/java/com/ls/http/base/BaseRequest.java:347-358 | POST parameters, the body object and both network hooks leave the URL unchanged. |
| `BaseRequest.ParsedBody` | library/src/main/java/com/ls/http/base/BaseRequest.java:176-180 | Absent data gives a success whose string is `"{}"` and whose error is null. Present data gives Volley's string parse. |
| `BaseRequest.ParseNetworkResponse` | library/src/main/java/com/ls/http/base/BaseRequest.java:174-191 | A cancelled request is unchanged. Otherwise the result's error, status, copied headers and string take the parse's values, and only the result changes. The decoded item is never stored. It throws exactly when the request is not cancelled and the decoder throws on a non-null string. |
| `BaseRequestLemmas.MissingDataReadsAsEmptyObject` | library/src/main/java/com/ls/http/base/BaseRequest.java:176-185 | A live request given a response without data records `"{}"` and no error. |
| `BaseRequestLemmas.ParseNetworkResponseIsIdempotent` | library/src/main/java/com/ls/http/base/BaseRequest.java:174-191 | Handling the same response twice leaves the same state as handling it once. |
| `BaseRequestLemmas.LaterResponseReplacesEarlier` | library/src/main/java/com/ls/http/base/BaseRequest.java:181-185 | There is no guard against a second delivery: a later response's status, headers and string replace the earlier ones. |
| `BaseRequest.ParseNetworkError` | library/src/main/java/com/ls/http/base/BaseRequest.java:194-207 | The recorded error is always the one returned, even when cancelled. Without an attached response, only the error changes. With one, status and headers equal the response's, even when cancelled. A live request also records the re-parsed string. |
| `BaseRequestLemmas.CancelledRequestStillTakesLaterError` | library/src/main/java/com/ls/http/base/BaseRequest.java:194-207 | No cancellation guard: on a cancelled request a second error replaces the recorded error, and its attached response's status and headers replace the earlier ones. |
| `BaseRequestLemmas.RecordedErrorIsReturnedError` | library/src/main/java/com/ls/http/base/BaseRequest.java:194-207 | The error written last at line 205 is what the hook returns. It overrides whatever the re-parse wrote at line 182. |
| `BaseRequestLemmas.ParseNetworkErrorIsIdempotent` | library/src/main/java/com/ls/http/base/BaseRequest.java:194-207 | Handling the same error twice leaves the same state as handling it once. |
| `BaseRequestLemmas.DecodedItemIsNeverRecorded` | library/src/main/java/com/ls/http/base/BaseRequest.java:186-188 | From a fresh request, after a response and then an error, the decoded-item slot is still empty. |
| `JavaModel.PutAll` | library/src/main/java/com/ls/http/base/BaseRequest.java:287-293 | `putAll` gives the union of keys, with argument values winning and receiver values kept elsewhere. |
| `JavaModel.PutEntriesOverrides` | library/src/main/java/com/ls/http/base/BaseRequest.java:287-293 | Putting the visited entries one at a time overrides the receiver by exactly those entries, in any order. |
| `JavaModel.PutAllIsOrderIndependent` | library/src/main/java/com/ls/http/base/BaseRequest.java:287-293 | Entry-by-entry `putAll` in any iteration order of the argument equals map override. |

## Findings

| source | as written | input that shows it | evidently intended | confidence | as-written member | corrected member |
|---|---|---|---|---|---|---|
| library/src/main/java/com/ls/http/base/BaseRequest.java:133-143 | `initRequestHeaders()` runs at line 138 and calls `this.responseHandler.getAcceptValueType()` (line 152). That field is assigned only at line 142, so it is still null. | Any call of any constructor | Assign the handlers first, so the Accept header is seeded with the response handler's media type | high (not executed) | `BaseRequest.ConstructAsWritten` | `BaseRequest.Construct` |
| library/src/main/java/com/ls/http/base/BaseRequest.java:326-333 | The encoder's content type is computed at line 328 and dropped. The transport default is always returned. | A JSON body object whose encoder type is `application/json; charset=UTF-8` is labelled `application/x-www-form-urlencoded; charset=UTF-8` (`BaseRequestLemmas.JsonBodyLabelledAsForm`) | Return the encoder's content type when the encoder produces the body (an object set and no POST map) | medium (not executed) | `BaseRequest.GetBodyContentType` | `BaseRequest.IntendedBodyContentType` |

All lemmas that start from a fresh request use the corrected `BaseRequest.Construct`, because the
constructor as written never returns.

## Left out

- BaseRequest.NewRequest: states the corrected constructor's behaviour (Accept header seeded), not the source's, because as written every construction throws; `BaseRequest.NewRequestAsWritten` states that.
- `performRequest`, `cancel`, `deliverResponse`, `deliverError`, the `RequestFuture` lock and the listener slot (lines 155-171, 209-238, 398-402): blocking, thread hand-off and callbacks. The `canceled` flag that `cancel` sets is a field of the state, not an operation.
- `equals`, `hashCode`, `toString` (lines 408-480): not meaningful equality. `equals` compares the request's own URL with itself (lines 433-434), so it ignores URLs, while `hashCode` includes them.
- The plain getters (`getRequestHeaders`, `getPostParameters`, `getGetParameters`, `getObjectToPost`, `getDefaultCharset`, `getResponseClasSpecifier`): each reads one field of the state record.
- The deprecated factory `newBaseRequest` (lines 108-111) and the five-argument public constructor (lines 125-127): they only forward to the protected constructor, modelled as written by `NewRequestAsWritten` and `ConstructAsWritten` and corrected by `NewRequest` and `Construct`.
- Volley's method codes behind `RequestMethod` (lines 47-54): they are Volley constants and not part of this model. The method is stored as an enumeration.
- Volley internals: `super.getHeaders`, `getParams`, `getBody`, `getBodyContentType`, `parseNetworkResponse` and `parseNetworkError`, and `HttpHeaderParser`. They are opaque fields of `Transport`. The cache entry of a `Response` is not modelled.
- The query-string construction and escaping of `android.net.Uri.Builder` (lines 349-353): `UriBuilder` stands for it, and the model states which pairs are appended and in what order.
- The `Handler` codecs and their lookup by format: they are opaque fields of `Codecs`, and the lookup is taken to be total. `Handler.java` is not part of this model.
- `ResponseData.java` is not part of this model. Its fields are modelled as nullable values that start out null.
- Null keys and null values inside maps, and a null header value passed to `addRequestHeader`: keys and values are non-null strings. A null `headers` map on a `NetworkResponse`, which would throw at lines 184 and 197, is not modelled either.
- BaseRequest.AddRequestHeader, and likewise `AddRequestHeaders`, `AddPostParameter(s)` and `AddGetParameter(s)`: "throws if and only if the map is null" holds only for modifiable maps. A map a caller hands to `setRequestHeaders`, `setPostParameters` or `setGetParameters`, or one adopted by `addPostParameters` or `addGetParameters`, is assumed modifiable. If it is not (for example `Collections.emptyMap()`), a later `addRequestHeader`, `addRequestHeaders`, `addPostParameter`, `addGetParameter` or bulk merge throws `UnsupportedOperationException` in Java. The model does not have that path, so those adders never throw on such a map.
- Reference identity: an adopted argument map, or the map returned by `getParams`, is shared with the caller in Java. The model compares maps by value.
- `L.e` logging (line 62) and printed stack traces (lines 164, 166, 316).

=== FILE: base_request.dfy ===
/** `BaseRequest`: the request-configuration state (headers, GET and POST parameters,
    body object) and the result record that the network hooks fill in. Every Java
    method that mutates the object becomes a function from the old state to the new
    one; a method that can throw returns an `Outcome`.
 */
module BaseRequest {
  import opened JavaModel
  import opened Formats
  import opened Collaborators

  /** `ACCEPT_HEADER_KEY`. */
  const AcceptHeaderKey: string := "Accept"

  /** `ResponseData`: the outcome record the request owns and fills in place. `data` is
      the slot for a decoded item; nothing in `BaseRequest` writes it. */
  datatype ResponseData = ResponseData(
    error: Option<VolleyError>,
    statusCode: Option<int>,
    headers: Option<StringMap>,
    responseString: Option<string>,
    data: Option<Obj>)

  const EmptyResponseData: ResponseData := ResponseData(None, None, None, None, None)

  /** The fields of a `BaseRequest` that its modelled methods read or write. `url` is the
      address given to the Volley constructor, `canceled` Volley's cancellation flag,
      `specifier` the response class specifier. The two handlers are not stored: they
      are the codecs chosen for `requestFormat` and `responseFormat`. */
  datatype Request = Request(
    verb: RequestMethod,
    url: string,
    requestFormat: RequestFormat,
    responseFormat: ResponseFormat,
    specifier: Option<Obj>,
    defaultCharset: Option<string>,
    requestHeaders: Option<StringMap>,
    postParameters: Option<StringMap>,
    getParameters: Option<StringMap>,
    objectToPost: Option<Obj>,
    canceled: bool,
    result: ResponseData)

  /** The state after a network hook, and how the hook ended. */
  datatype Step<+T> = Step(request: Request, outcome: Outcome<T>)

  /** The state after `parseNetworkError`, and the error it returns (that hook never throws). */
  datatype ErrorStep = ErrorStep(request: Request, error: VolleyError)

  // ---------------------------------------------------------------------------
  // Construction
  // ---------------------------------------------------------------------------

  /** `initRequestHeaders()`: a fresh header map seeded with the Accept value of the
      response handler, where `responseHandler` is that field as it stands at the call
      (a handler is known by the format it was chosen for). */
  function InitRequestHeaders(responseHandler: Option<ResponseFormat>, codecs: Codecs): (r: Outcome<StringMap>)
    ensures responseHandler.None? ==> r == Threw(NullPointer)
    ensures responseHandler.Some? ==>
              && r.Returned?
              && r.value.Keys == {AcceptHeaderKey}
              && r.value[AcceptHeaderKey] == codecs.acceptValue(responseHandler.value)
  {
    var headers: StringMap := map[];
    match responseHandler
    case None => Threw(NullPointer)
    case Some(f) => Returned(headers[AcceptHeaderKey := codecs.acceptValue(f)])
  }

  /** The protected constructor in the order it is written: `initRequestHeaders()` runs
      while `responseHandler` still holds its default `null`, because that field is
      assigned only after it. Every construction therefore throws. */
  function ConstructAsWritten(verb: RequestMethod, url: string, requestFormat: RequestFormat,
                              responseFormat: ResponseFormat, specifier: Option<Obj>,
                              codecs: Codecs): (r: Outcome<Request>)
    ensures r == Threw(NullPointer)
  {
    var handlerAtInit: Option<ResponseFormat> := None;
    match InitRequestHeaders(handlerAtInit, codecs)
    case Threw(f) => Threw(f)
    case Returned(headers) =>
      Returned(Request(verb, url, requestFormat, responseFormat, specifier, None,
                       Some(headers), None, None, None, false, EmptyResponseData))
  }

  /** The protected constructor with the handlers assigned before the headers are seeded,
      as the Accept header evidently intends: the request carries exactly the Accept
      header of its response format, no parameters, no body object, and an empty result. */
  function Construct(verb: RequestMethod, url: string, requestFormat: RequestFormat,
                     responseFormat: ResponseFormat, specifier: Option<Obj>,
                     codecs: Codecs): (r: Request)
    ensures r.verb == verb && r.url == url && r.specifier == specifier
    ensures r.requestFormat == requestFormat && r.responseFormat == responseFormat
    ensures r.requestHeaders.Some?
    ensures r.requestHeaders.value.Keys == {AcceptHeaderKey}
    ensures r.requestHeaders.value[AcceptHeaderKey] == codecs.acceptValue(responseFormat)
    ensures r.getParameters.None? && r.postParameters.None? && r.objectToPost.None?
    ensures r.defaultCharset.None? && !r.canceled
    ensures r.result == EmptyResponseData
  {
    var responseHandler := Some(responseFormat);
    var headers := InitRequestHeaders(responseHandler, codecs).value;
    Request(verb, url, requestFormat, responseFormat, specifier, None,
            Some(headers), None, None, None, false, EmptyResponseData)
  }

  /** The public constructor without a response format, as written: it forwards to the
      protected constructor, which throws on every call. */
  function NewRequestAsWritten(verb: RequestMethod, url: string, requestFormat: RequestFormat,
                               specifier: Option<Obj>, codecs: Codecs): (r: Outcome<Request>)
    ensures r == Threw(NullPointer)
  {
    ConstructAsWritten(verb, url, requestFormat, ToResponse(requestFormat), specifier, codecs)
  }

  /** Corrected (see README, Findings): the public constructor without a response format,
      forwarding to `Construct`. It expects the response format `toResponse()` derives from
      the request format, and seeds the matching Accept header. */
  function NewRequest(verb: RequestMethod, url: string, requestFormat: RequestFormat,
                      specifier: Option<Obj>, codecs: Codecs): (r: Request)
    ensures requestFormat == RequestFormat.MULTIPART ==> r.responseFormat == ResponseFormat.JSON
    ensures requestFormat != RequestFormat.MULTIPART ==>
              ResponseName(r.responseFormat) == RequestName(requestFormat)
    ensures r.requestHeaders.Some? && AcceptHeaderKey in r.requestHeaders.value
    ensures r.requestHeaders.value[AcceptHeaderKey] == codecs.acceptValue(r.responseFormat)
  {
    Construct(verb, url, requestFormat, ToResponse(requestFormat), specifier, codecs)
  }

  // ---------------------------------------------------------------------------
  // Headers
  // ---------------------------------------------------------------------------

  /** `setRequestHeaders`: the map replaces the explicit headers, null included. */
  function SetRequestHeaders(req: Request, headers: Option<StringMap>): (r: Request)
    ensures r.requestHeaders == headers
    ensures r == req.(requestHeaders := r.requestHeaders)
  {
    req.(requestHeaders := headers)
  }

  /** `addRequestHeader`: puts one header; throws when the header map has been set to null. */
  function AddRequestHeader(req: Request, key: string, value: string): (r: Outcome<Request>)
    ensures req.requestHeaders.None? <==> r == Threw(NullPointer)
    ensures r.Returned? ==>
              && r.value == req.(requestHeaders := r.value.requestHeaders)
              && r.value.requestHeaders.Some?
              && key in r.value.requestHeaders.value
              && r.value.requestHeaders.value[key] == value
              && AgreeExcept(req.requestHeaders.value, r.value.requestHeaders.value, key)
  {
    match req.requestHeaders
    case None => Threw(NullPointer)
    case Some(h) => Returned(req.(requestHeaders := Some(h[key := value])))
  }

  /** `addRequestHeaders`: merges a map into the headers; throws when either is null. */
  function AddRequestHeaders(req: Request, headers: Option<StringMap>): (r: Outcome<Request>)
    ensures req.requestHeaders.None? || headers.None? <==> r == Threw(NullPointer)
    ensures r.Returned? ==>
              && r.value == req.(requestHeaders := r.value.requestHeaders)
              && r.value.requestHeaders.Some?
              && IsOverlay(req.requestHeaders.value, headers.value, r.value.requestHeaders.value)
  {
    match req.requestHeaders
    case None => Threw(NullPointer)
    case Some(h) =>
      match headers
      case None => Threw(NullPointer)
      case Some(extra) => Returned(req.(requestHeaders := Some(PutAll(h, extra))))
  }

  /** `getHeaders`: the transport's default headers overlaid by the explicit ones. */
  function GetHeaders(req: Request, t: Transport): (r: StringMap)
    ensures IsOverlay(t.defaultHeaders, req.requestHeaders.GetOr(map[]), r)
  {
    var result := PutAll(map[], t.defaultHeaders);
    match req.requestHeaders
    case None => result
    case Some(h) => PutAll(result, h)
  }

  // ---------------------------------------------------------------------------
  // GET and POST parameters (the two maps follow the same rules)
  // ---------------------------------------------------------------------------

  /** `after` is the parameter map `before` (a fresh one when null) with `key` set to
      `value`, or removed when `value` is null. */
  ghost predicate ParameterPut(before: Option<StringMap>, after: StringMap, key: string, value: Option<string>) {
    && (value.Some? ==> key in after && after[key] == value.value)
    && (value.None? ==> key !in after)
    && AgreeExcept(before.GetOr(map[]), after, key)
  }

  /** `r` is what the bulk adder leaves in a field holding `before` when given `arg`:
      the argument itself when the field is null, a `NullPointerException` when only the
      argument is null, and otherwise the old map overridden by the argument. */
  ghost predicate ParametersMerged(before: Option<StringMap>, arg: Option<StringMap>, r: Outcome<Option<StringMap>>) {
    && (before.None? ==> r == Returned(arg))
    && (before.Some? && arg.None? ==> r == Threw(NullPointer))
    && (before.Some? && arg.Some? ==>
          r.Returned? && r.value.Some? && IsOverlay(before.value, arg.value, r.value.value))
  }

  /** The body shared by `addGetParameter` and `addPostParameter`. */
  function PutOrRemove(m: Option<StringMap>, key: string, value: Option<string>): (r: StringMap)
    ensures ParameterPut(m, r, key, value)
  {
    var current := m.GetOr(map[]);
    match value
    case None => current - {key}
    case Some(v) => current[key := v]
  }

  /** The body shared by `addGetParameters` and `addPostParameters`. */
  function AddAll(m: Option<StringMap>, arg: Option<StringMap>): (r: Outcome<Option<StringMap>>)
    ensures ParametersMerged(m, arg, r)
  {
    match m
    case None => Returned(arg)
    case Some(existing) =>
      match arg
      case None => Threw(NullPointer)
      case Some(extra) => Returned(Some(PutAll(existing, extra)))
  }

  /** `setGetParameters`. */
  function SetGetParameters(req: Request, params: Option<StringMap>): (r: Request)
    ensures r.getParameters == params
    ensures r == req.(getParameters := r.getParameters)
  {
    req.(getParameters := params)
  }

  /** `addGetParameter`: the map exists afterwards; a null value deletes the key. */
  function AddGetParameter(req: Request, key: string, value: Option<string>): (r: Request)
    ensures r.getParameters.Some?
    ensures ParameterPut(req.getParameters, r.getParameters.value, key, value)
    ensures r == req.(getParameters := r.getParameters)
  {
    req.(getParameters := Some(PutOrRemove(req.getParameters, key, value)))
  }

  /** `addGetParameters`: adopts the argument when no map exists, else merges it in. */
  function AddGetParameters(req: Request, params: Option<StringMap>): (r: Outcome<Request>)
    ensures ParametersMerged(req.getParameters,
                             params,
                             match r case Returned(q) => Returned(q.getParameters) case Threw(f) => Threw(f))
    ensures r.Returned? ==> r.value == req.(getParameters := r.value.getParameters)
  {
    match AddAll(req.getParameters, params)
    case Threw(f) => Threw(f)
    case Returned(merged) => Returned(req.(getParameters := merged))
  }

  /** `setPostParameters`. */
  function SetPostParameters(req: Request, params: Option<StringMap>): (r: Request)
    ensures r.postParameters == params
    ensures r == req.(postParameters := r.postParameters)
  {
    req.(postParameters := params)
  }

  /** `addPostParameter`: the map exists afterwards; a null value deletes the key. */
  function AddPostParameter(req: Request, key: string, value: Option<string>): (r: Request)
    ensures r.postParameters.Some?
    ensures ParameterPut(req.postParameters, r.postParameters.value, key, value)
    ensures r == req.(postParameters := r.postParameters)
  {
    req.(postParameters := Some(PutOrRemove(req.postParameters, key, value)))
  }

  /** `addPostParameters`: adopts the argument when no map exists, else merges it in. */
  function AddPostParameters(req: Request, params: Option<StringMap>): (r: Outcome<Request>)
    ensures ParametersMerged(req.postParameters,
                             params,
                             match r case Returned(q) => Returned(q.postParameters) case Threw(f) => Threw(f))
    ensures r.Returned? ==> r.value == req.(postParameters := r.value.postParameters)
  {
    match AddAll(req.postParameters, params)
    case Threw(f) => Threw(f)
    case Returned(merged) => Returned(req.(postParameters := merged))
  }

  /** `getParams`: the explicit POST parameters when a map exists, else the default. */
  function GetParams(req: Request, t: Transport): (r: Option<StringMap>)
    ensures req.postParameters.Some? ==> r == req.postParameters
    ensures req.postParameters.None? ==> r == t.defaultParams
  {
    if req.postParameters.Some? then req.postParameters else t.defaultParams
  }

  // ---------------------------------------------------------------------------
  // Body
  // ---------------------------------------------------------------------------

  /** `setObjectToPost`: stores the object and binds it to the request encoder. */
  function SetObjectToPost(req: Request, obj: Option<Obj>): (r: Request)
    ensures r.objectToPost == obj
    ensures r == req.(objectToPost := r.objectToPost)
  {
    req.(objectToPost := obj)
  }

  /** `setDefaultCharset`. */
  function SetDefaultCharset(req: Request, charset: Option<string>): (r: Request)
    ensures r.defaultCharset == charset
    ensures r == req.(defaultCharset := r.defaultCharset)
  {
    req.(defaultCharset := charset)
  }

  /** The condition under which `getBody` asks the encoder: an object is set and no POST
      parameter map exists (an empty map still counts as existing). */
  predicate EncodesObject(req: Request) {
    req.objectToPost.Some? && req.postParameters.None?
  }

  /** `getBody`: the encoded object when `EncodesObject` holds, with an unsupported charset
      turned into an empty body; otherwise the transport's body for `getParams()`. */
  function GetBody(req: Request, t: Transport, c: Codecs): (r: Outcome<Option<Bytes>>)
    ensures !EncodesObject(req) ==> r == Returned(t.defaultBody(GetParams(req, t)))
    ensures EncodesObject(req) ==>
              var encoded := c.encodeBody(req.requestFormat, req.objectToPost.value, req.defaultCharset);
              && (encoded.Returned? ==> r == Returned(Some(encoded.value)))
              && (encoded == Threw(UnsupportedEncoding) ==> r == Returned(Some([])))
              && (encoded.Threw? && encoded.fault != UnsupportedEncoding ==> r == Threw(encoded.fault))
  {
    if req.objectToPost.Some? && req.postParameters.None? then
      match c.encodeBody(req.requestFormat, req.objectToPost.value, req.defaultCharset)
      case Returned(body) => Returned(Some(body))
      case Threw(UnsupportedEncoding) => Returned(Some([]))
      case Threw(f) => Threw(f)
    else
      Returned(t.defaultBody(GetParams(req, t)))
  }

  /** `getBodyContentType` as written: when an object is set the encoder's content type is
      computed and then dropped, so the transport's default is returned unless that call
      throws, in which case the exception propagates. */
  function GetBodyContentType(req: Request, t: Transport, c: Codecs): (r: Outcome<string>)
    ensures req.objectToPost.None? ==> r == Returned(t.defaultBodyContentType)
    ensures req.objectToPost.Some? ==>
              var computed := c.bodyContentType(req.requestFormat, req.objectToPost.value, req.defaultCharset);
              && (computed.Threw? ==> r == Threw(computed.fault))
              && (computed.Returned? ==> r == Returned(t.defaultBodyContentType))
  {
    match req.objectToPost
    case None => Returned(t.defaultBodyContentType)
    case Some(obj) =>
      match c.bodyContentType(req.requestFormat, obj, req.defaultCharset)
      case Threw(f) => Threw(f)
      case Returned(_) => Returned(t.defaultBodyContentType)
  }

  /** `getBodyContentType` as evidently intended: the encoder's content type exactly when
      the encoder produces the body (`EncodesObject`), the transport's default for the
      form body otherwise. */
  function IntendedBodyContentType(req: Request, t: Transport, c: Codecs): (r: Outcome<string>)
    ensures EncodesObject(req) ==>
              r == c.bodyContentType(req.requestFormat, req.objectToPost.value, req.defaultCharset)
    ensures !EncodesObject(req) ==> r == Returned(t.defaultBodyContentType)
  {
    if EncodesObject(req) then c.bodyContentType(req.requestFormat, req.objectToPost.value, req.defaultCharset)
    else Returned(t.defaultBodyContentType)
  }

  // ---------------------------------------------------------------------------
  // URL
  // ---------------------------------------------------------------------------

  /** The (key, value) pairs `getUrl` appends, in the order `order` lists the keys. */
  function QueryPairs(params: StringMap, order: seq<string>): seq<(string, string)>
    requires forall k :: k in order ==> k in params
    decreases |order|
  {
    if order == [] then []
    else [(order[0], params[order[0]])] + QueryPairs(params, order[1..])
  }

  /** One `appendQueryParameter` call per pair, left to right. */
  function AppendPairs<U>(builder: U, pairs: seq<(string, string)>, append: (U, string, string) -> U): U
    decreases |pairs|
  {
    if pairs == [] then builder
    else AppendPairs(append(builder, pairs[0].0, pairs[0].1), pairs[1..], append)
  }

  /** `getUrl`: the base URL untouched unless a non-empty GET parameter map exists; then
      the base URL re-parsed with every parameter appended as a query parameter, in the
      order `order` in which the map's entry set yields its keys. */
  function GetUrl<U>(req: Request, u: UriBuilder<U>, order: seq<string>): (r: string)
    requires Enumerates(order, req.getParameters.GetOr(map[]))
    ensures req.getParameters.None? || req.getParameters.value == map[] ==> r == req.url
  {
    if req.getParameters.Some? && req.getParameters.value != map[] then
      var params := req.getParameters.value;
      u.render(AppendPairs(u.parse(req.url), QueryPairs(params, order), u.appendQueryParameter))
    else
      req.url
  }

  // ---------------------------------------------------------------------------
  // Network hooks
  // ---------------------------------------------------------------------------

  /** The `Response<String>` computed at the top of `parseNetworkResponse`: Volley's string
      parse when the response has data, otherwise a success carrying `"{}"`. */
  function ParsedBody(response: NetworkResponse, t: Transport): (r: ParsedResponse)
    ensures response.data.None? ==> r.result == Some("{}") && r.error.None?
    ensures response.data.Some? ==> r == t.parseString(response)
  {
    if response.data.Some? then t.parseString(response)
    else ParsedResponse(Some("{}"), None)
  }

  /** `parseNetworkResponse`. Unless the request is cancelled it writes the parse error,
      status code, a copy of the headers and the response string into the result, then
      runs the decoder on a non-null string and discards what it decodes; an exception
      from the decoder propagates after those writes. */
  function ParseNetworkResponse(req: Request, response: NetworkResponse, t: Transport, c: Codecs): (r: Step<ParsedResponse>)
    ensures r.outcome.Returned? ==> r.outcome.value == ParsedBody(response, t)
    ensures req.canceled ==> r.request == req && r.outcome.Returned?
    ensures !req.canceled ==>
              && r.request == req.(result := r.request.result)
              && r.request.result.statusCode == Some(response.statusCode)
              && r.request.result.headers == Some(response.headers)
              && r.request.result.responseString == ParsedBody(response, t).result
              && r.request.result.error == ParsedBody(response, t).error
              && r.request.result.data == req.result.data
    ensures r.outcome.Threw? <==>
              && !req.canceled
              && ParsedBody(response, t).result.Some?
              && c.decode(req.responseFormat, ParsedBody(response, t).result.value, req.specifier).Threw?
  {
    var parsed := ParsedBody(response, t);
    if req.canceled then
      Step(req, Returned(parsed))
    else
      var written := req.result.(error := parsed.error,
                                 statusCode := Some(response.statusCode),
                                 headers := Some(response.headers),
                                 responseString := parsed.result);
      var updated := req.(result := written);
      if parsed.result.Some? then
        match c.decode(req.responseFormat, parsed.result.value, req.specifier)
        case Returned(_) => Step(updated, Returned(parsed))
        case Threw(f) => Step(updated, Threw(f))
      else
        Step(updated, Returned(parsed))
  }

  /** `parseNetworkError`. An attached response has its headers and status code copied
      into the result (even when cancelled) and is parsed again as a success, with any
      exception swallowed; the error Volley derives is then recorded and returned. */
  function ParseNetworkError(req: Request, e: VolleyError, t: Transport, c: Codecs): (r: ErrorStep)
    ensures r.error == t.parseError(e)
    ensures r.request.result.error == Some(r.error)
    ensures r.request == req.(result := r.request.result)
    ensures r.request.result.data == req.result.data
    ensures e.networkResponse.None? ==> r.request.result == req.result.(error := Some(r.error))
    ensures e.networkResponse.Some? ==>
              && r.request.result.statusCode == Some(e.networkResponse.value.statusCode)
              && r.request.result.headers == Some(e.networkResponse.value.headers)
    ensures e.networkResponse.Some? && !req.canceled ==>
              r.request.result.responseString == ParsedBody(e.networkResponse.value, t).result
    ensures req.canceled ==> r.request.result.responseString == req.result.responseString
  {
    var error := t.parseError(e);
    var afterResponse :=
      match e.networkResponse
      case None => req
      case Some(nr) =>
        var copied := req.(result := req.result.(headers := Some(nr.headers), statusCode := Some(nr.statusCode)));
        ParseNetworkResponse(copied, nr, t, c).request;
    ErrorStep(afterResponse.(result := afterResponse.result.(error := Some(error))), error)
  }
}

=== FILE: base_request_lemmas.dfy ===
/** Properties that relate several operations of `BaseRequest`, or an operation and a
    reference definition: format mapping, parameter maps, body and URL selection, the
    network hooks, and the two discrepancies in the source (see README, Findings).
 */
module BaseRequestLemmas {
  import opened JavaModel
  import opened Formats
  import opened Collaborators
  import opened BaseRequest

  // ---------------------------------------------------------------------------
  // Format mapping
  // ---------------------------------------------------------------------------

  /** Every response format is expected by the request format of the same name, and the
      mapping is one-to-one away from MULTIPART, which shares JSON's response format. */
  lemma ToResponseIsOntoAndNameKeeping()
    ensures forall rf: ResponseFormat :: ToResponse(RequestNamed(rf)) == rf
    ensures forall f1: RequestFormat, f2: RequestFormat ::
              f1 != RequestFormat.MULTIPART && f2 != RequestFormat.MULTIPART && ToResponse(f1) == ToResponse(f2)
              ==> f1 == f2
    ensures ToResponse(RequestFormat.MULTIPART) == ToResponse(RequestFormat.JSON)
  {
  }

  /** The request format whose name a response format carries. */
  function RequestNamed(rf: ResponseFormat): (f: RequestFormat)
    ensures f != RequestFormat.MULTIPART && RequestName(f) == ResponseName(rf)
  {
    match rf
    case JSON => RequestFormat.JSON
    case XML => RequestFormat.XML
    case JSON_HAL => RequestFormat.JSON_HAL
    case TEXT => RequestFormat.TEXT
  }

  // ---------------------------------------------------------------------------
  // Parameter maps
  // ---------------------------------------------------------------------------

  /** In the shared put-or-remove step, deleting with a null value undoes putting a key
      the map did not hold. */
  lemma PutThenRemoveRestores(m: StringMap, key: string, value: string)
    requires key !in m
    ensures PutOrRemove(Some(PutOrRemove(Some(m), key, Some(value))), key, None) == m
  {
    assert m[key := value] - {key} == m;
  }

  /** For both parameter maps, deleting with a null value undoes putting a key the map
      did not hold. */
  lemma NullValueUndoesPut(req: Request, key: string, value: string)
    ensures req.getParameters.Some? && key !in req.getParameters.value ==>
              AddGetParameter(AddGetParameter(req, key, Some(value)), key, None) == req
    ensures req.postParameters.Some? && key !in req.postParameters.value ==>
              AddPostParameter(AddPostParameter(req, key, Some(value)), key, None) == req
  {
    if req.getParameters.Some? && key !in req.getParameters.value {
      PutThenRemoveRestores(req.getParameters.value, key, value);
    }
    if req.postParameters.Some? && key !in req.postParameters.value {
      PutThenRemoveRestores(req.postParameters.value, key, value);
    }
  }

  /** A GET parameter added to a request is read back by `getUrl`'s iteration, and so is
      every parameter that was there before under another key. */
  lemma AddedGetParameterIsAppended<U>(req: Request, key: string, value: string, u: UriBuilder<U>, order: seq<string>)
    requires Enumerates(order, AddGetParameter(req, key, Some(value)).getParameters.value)
    ensures var after := AddGetParameter(req, key, Some(value));
            var pairs := QueryPairs(after.getParameters.value, order);
            && GetUrl(after, u, order) == u.render(AppendPairs(u.parse(req.url), pairs, u.appendQueryParameter))
            && (key, value) in pairs
            && (forall k :: k in req.getParameters.GetOr(map[]) && k != key ==>
                              (k, req.getParameters.value[k]) in pairs)
  {
    var after := AddGetParameter(req, key, Some(value));
    var params := after.getParameters.value;
    assert key in params;
    GetUrlAppendsEveryParameterOnce(after, u, order);
    assert (key, value) in params.Items;
    forall k | k in req.getParameters.GetOr(map[]) && k != key
      ensures (k, req.getParameters.value[k]) in QueryPairs(params, order)
    {
      assert (k, req.getParameters.value[k]) in params.Items;
    }
  }

  // ---------------------------------------------------------------------------
  // URL
  // ---------------------------------------------------------------------------

  /** `QueryPairs` visits the keys exactly in iteration order, pairing each with its value. */
  lemma {:induction false} QueryPairsFollowOrder(params: StringMap, order: seq<string>)
    requires forall k :: k in order ==> k in params
    ensures |QueryPairs(params, order)| == |order|
    ensures forall i :: 0 <= i < |order| ==> QueryPairs(params, order)[i] == (order[i], params[order[i]])
    decreases |order|
  {
    if order != [] {
      assert forall k :: k in order[1..] ==> k in order;
      QueryPairsFollowOrder(params, order[1..]);
      var pairs := QueryPairs(params, order);
      assert pairs == [(order[0], params[order[0]])] + QueryPairs(params, order[1..]);
      forall i | 0 <= i < |order|
        ensures pairs[i] == (order[i], params[order[i]])
      {
        if i > 0 {
          assert pairs[i] == QueryPairs(params, order[1..])[i - 1];
          assert order[1..][i - 1] == order[i];
        }
      }
    }
  }

  /** With a non-empty GET parameter map, `getUrl` appends every entry of the map, with
      its value, exactly once (no key twice, nothing else). */
  lemma GetUrlAppendsEveryParameterOnce<U>(req: Request, u: UriBuilder<U>, order: seq<string>)
    requires req.getParameters.Some? && req.getParameters.value != map[]
    requires Enumerates(order, req.getParameters.value)
    ensures var params := req.getParameters.value;
            var pairs := QueryPairs(params, order);
            && GetUrl(req, u, order) == u.render(AppendPairs(u.parse(req.url), pairs, u.appendQueryParameter))
            && |pairs| == |order|
            && (forall p :: p in pairs <==> p in params.Items)
            && (forall i, j :: 0 <= i < j < |pairs| ==> pairs[i].0 != pairs[j].0)
  {
    var params := req.getParameters.value;
    var pairs := QueryPairs(params, order);
    QueryPairsFollowOrder(params, order);
    forall p | p in pairs ensures p in params.Items {
      var i :| 0 <= i < |pairs| && pairs[i] == p;
      assert p == (order[i], params[order[i]]);
    }
    forall p | p in params.Items ensures p in pairs {
      assert p.0 in order;
      var i :| 0 <= i < |order| && order[i] == p.0;
      assert pairs[i] == p;
    }
  }

  /** `getUrl` reads only the base URL and the GET parameters: two requests that agree on
      those give the same URL, so repeated calls agree. */
  lemma GetUrlReadsOnlyUrlAndGetParameters<U>(req1: Request, req2: Request, u: UriBuilder<U>, order: seq<string>)
    requires req1.url == req2.url && req1.getParameters == req2.getParameters
    requires Enumerates(order, req1.getParameters.GetOr(map[]))
    ensures GetUrl(req1, u, order) == GetUrl(req2, u, order)
  {
  }

  /** Instances of that congruence: the other mutators and both network hooks leave the
      URL unchanged. */
  lemma OtherOperationsKeepUrl<U>(req: Request, u: UriBuilder<U>, order: seq<string>,
                                  key: string, value: Option<string>, obj: Option<Obj>,
                                  response: NetworkResponse, e: VolleyError, t: Transport, c: Codecs)
    requires Enumerates(order, req.getParameters.GetOr(map[]))
    ensures GetUrl(AddPostParameter(req, key, value), u, order) == GetUrl(req, u, order)
    ensures GetUrl(SetObjectToPost(req, obj), u, order) == GetUrl(req, u, order)
    ensures GetUrl(ParseNetworkResponse(req, response, t, c).request, u, order) == GetUrl(req, u, order)
    ensures GetUrl(ParseNetworkError(req, e, t, c).request, u, order) == GetUrl(req, u, order)
  {
  }

  // ---------------------------------------------------------------------------
  // Headers
  // ---------------------------------------------------------------------------

  /** A header added explicitly is sent with that value even when the transport has a
      default for the same key. */
  lemma ExplicitHeaderWins(req: Request, t: Transport, key: string, value: string)
    requires req.requestHeaders.Some?
    ensures AddRequestHeader(req, key, value).Returned?
    ensures GetHeaders(AddRequestHeader(req, key, value).value, t)[key] == value
  {
  }

  /** With the constructor corrected, the Accept header of the response format is sent,
      whatever Accept value the transport would default to. */
  lemma ConstructedRequestSendsAcceptHeader(verb: RequestMethod, url: string, requestFormat: RequestFormat,
                                            responseFormat: ResponseFormat, specifier: Option<Obj>,
                                            codecs: Codecs, t: Transport)
    ensures var headers := GetHeaders(Construct(verb, url, requestFormat, responseFormat, specifier, codecs), t);
            AcceptHeaderKey in headers && headers[AcceptHeaderKey] == codecs.acceptValue(responseFormat)
  {
  }

  // ---------------------------------------------------------------------------
  // Body
  // ---------------------------------------------------------------------------

  /** Once a POST parameter map is set, `getBody` is the transport's encoding of that map,
      whatever object is set and whatever the encoder does. */
  lemma PostParametersOverrideBodyObject(req: Request, params: StringMap, obj: Obj,
                                         key: string, value: Option<string>, t: Transport, c: Codecs)
    ensures GetBody(SetPostParameters(SetObjectToPost(req, Some(obj)), Some(params)), t, c)
            == Returned(t.defaultBody(Some(params)))
    ensures var added := AddPostParameter(SetObjectToPost(req, Some(obj)), key, value);
            GetBody(added, t, c) == Returned(t.defaultBody(added.postParameters))
  {
  }

  /** Outside `EncodesObject` the encoder is never consulted: any two codec sets agree. */
  lemma BodyIgnoresEncoderUnlessEncoding(req: Request, t: Transport, c1: Codecs, c2: Codecs)
    requires !EncodesObject(req)
    ensures GetBody(req, t, c1) == GetBody(req, t, c2)
  {
  }

  /** Inside `EncodesObject` the transport is never consulted: any two transports agree. */
  lemma BodyIgnoresTransportWhenEncoding(req: Request, t1: Transport, t2: Transport, c: Codecs)
    requires EncodesObject(req)
    ensures GetBody(req, t1, c) == GetBody(req, t2, c)
  {
  }

  /** An unsupported charset does not surface as an error: the body is empty. */
  lemma UnsupportedCharsetYieldsEmptyBody(req: Request, t: Transport, c: Codecs)
    requires EncodesObject(req)
    requires c.encodeBody(req.requestFormat, req.objectToPost.value, req.defaultCharset) == Threw(UnsupportedEncoding)
    ensures GetBody(req, t, c).Returned? && GetBody(req, t, c).value.Some?
    ensures |GetBody(req, t, c).value.value| == 0
  {
  }

  /** As written, whenever `getBodyContentType` returns, its value depends neither on the
      body object nor on the encoder: it is what a request without an object gets. */
  lemma ContentTypeIgnoresBodyObject(req: Request, obj: Obj, t: Transport, c1: Codecs, c2: Codecs)
    ensures GetBodyContentType(SetObjectToPost(req, Some(obj)), t, c1).Returned? ==>
              GetBodyContentType(SetObjectToPost(req, Some(obj)), t, c1)
              == GetBodyContentType(SetObjectToPost(req, None), t, c2)
  {
  }

  /** The discrepancy: when the encoder produces the body and names a content type other
      than the transport's default, the request is labelled with the default, not with the
      type of the body it sends. */
  lemma ContentTypeMislabelsEncodedBody(req: Request, t: Transport, c: Codecs, encoderType: string)
    requires EncodesObject(req)
    requires c.bodyContentType(req.requestFormat, req.objectToPost.value, req.defaultCharset) == Returned(encoderType)
    requires encoderType != t.defaultBodyContentType
    ensures GetBodyContentType(req, t, c) == Returned(t.defaultBodyContentType)
    ensures IntendedBodyContentType(req, t, c) == Returned(encoderType)
    ensures GetBodyContentType(req, t, c) != IntendedBodyContentType(req, t, c)
  {
  }

  /** A concrete instance: a JSON body object sent with a form content type. */
  lemma JsonBodyLabelledAsForm()
    ensures exists req: Request, t: Transport, c: Codecs ::
              && EncodesObject(req)
              && req.requestFormat == RequestFormat.JSON
              && GetBodyContentType(req, t, c) == Returned("application/x-www-form-urlencoded; charset=UTF-8")
              && IntendedBodyContentType(req, t, c) == Returned("application/json; charset=UTF-8")
  {
    var c := Codecs(
      (rf: ResponseFormat) => "application/json",
      (f: RequestFormat, o: Obj, cs: Option<string>) => Returned([]),
      (f: RequestFormat, o: Obj, cs: Option<string>) => Returned("application/json; charset=UTF-8"),
      (rf: ResponseFormat, s: string, spec: Option<Obj>) => Returned(Obj(0)));
    var t := Transport(
      map[],
      None,
      (p: Option<StringMap>) => None,
      "application/x-www-form-urlencoded; charset=UTF-8",
      (nr: NetworkResponse) => ParsedResponse(None, None),
      (e: VolleyError) => e);
    var req := SetObjectToPost(Construct(POST, "http://h/p", RequestFormat.JSON, ResponseFormat.JSON, None, c),
                               Some(Obj(1)));
    assert GetBodyContentType(req, t, c) == Returned("application/x-www-form-urlencoded; charset=UTF-8");
    assert IntendedBodyContentType(req, t, c) == Returned("application/json; charset=UTF-8");
    assert EncodesObject(req) && req.requestFormat == RequestFormat.JSON;
  }

  // ---------------------------------------------------------------------------
  // Network hooks
  // ---------------------------------------------------------------------------

  /** A response without data reads as the empty JSON object `"{}"`. */
  lemma MissingDataReadsAsEmptyObject(req: Request, response: NetworkResponse, t: Transport, c: Codecs)
    requires response.data.None? && !req.canceled
    ensures ParseNetworkResponse(req, response, t, c).request.result.responseString == Some("{}")
    ensures ParseNetworkResponse(req, response, t, c).request.result.error.None?
  {
  }

  /** Parsing the same response twice leaves the state parsing it once left. */
  lemma ParseNetworkResponseIsIdempotent(req: Request, response: NetworkResponse, t: Transport, c: Codecs)
    ensures var once := ParseNetworkResponse(req, response, t, c).request;
            ParseNetworkResponse(once, response, t, c).request == once
  {
  }

  /** Recording the same error twice leaves the state recording it once left. */
  lemma ParseNetworkErrorIsIdempotent(req: Request, e: VolleyError, t: Transport, c: Codecs)
    ensures var once := ParseNetworkError(req, e, t, c).request;
            ParseNetworkError(once, e, t, c).request == once
  {
  }

  /** Nothing guards against a second delivery besides cancellation: a later response
      replaces the status code, headers and string of an earlier one. */
  lemma LaterResponseReplacesEarlier(req: Request, first: NetworkResponse, second: NetworkResponse, t: Transport, c: Codecs)
    requires !req.canceled
    ensures var after := ParseNetworkResponse(ParseNetworkResponse(req, first, t, c).request, second, t, c).request;
            && after.result.statusCode == Some(second.statusCode)
            && after.result.headers == Some(second.headers)
            && after.result.responseString == ParsedBody(second, t).result
  {
  }

  /** `parseNetworkError` has no cancellation guard on its writes: on a cancelled request a
      second error still replaces the first, and its attached response's status and headers
      replace the earlier ones. */
  lemma CancelledRequestStillTakesLaterError(req: Request, first: VolleyError, second: VolleyError, t: Transport, c: Codecs)
    requires req.canceled
    ensures var after := ParseNetworkError(ParseNetworkError(req, first, t, c).request, second, t, c).request;
            && after.result.error == Some(t.parseError(second))
            && (second.networkResponse.Some? ==>
                  && after.result.statusCode == Some(second.networkResponse.value.statusCode)
                  && after.result.headers == Some(second.networkResponse.value.headers))
  {
  }

  /** The error that `parseNetworkError` returns is the one recorded, even when the request
      was cancelled and even when the re-parse of the attached response wrote its own. */
  lemma RecordedErrorIsReturnedError(req: Request, e: VolleyError, t: Transport, c: Codecs)
    ensures ParseNetworkError(req, e, t, c).request.result.error == Some(ParseNetworkError(req, e, t, c).error)
    ensures ParseNetworkError(req, e, t, c).error == t.parseError(e)
  {
  }

  /** No hook fills the decoded-item slot: from a fresh request, after a response and then
      an error, `data` is still empty. */
  lemma DecodedItemIsNeverRecorded(verb: RequestMethod, url: string, requestFormat: RequestFormat,
                                   responseFormat: ResponseFormat, specifier: Option<Obj>,
                                   response: NetworkResponse, e: VolleyError, t: Transport, c: Codecs)
    ensures var created := Construct(verb, url, requestFormat, responseFormat, specifier, c);
            var afterResponse := ParseNetworkResponse(created, response, t, c).request;
            ParseNetworkError(afterResponse, e, t, c).request.result.data.None?
  {
  }
}

=== FILE: collaborators.dfy ===
/** What `BaseRequest` calls but does not define: the Volley super-class behaviour it
    falls back on, the format codecs of `Handler`, and `android.net.Uri.Builder`.
    Each is a record of total functions, so every operation of the request object is a
    pure function of its state and of these collaborators.
 */
module Collaborators {
  import opened JavaModel
  import opened Formats

  /** A raw HTTP response as Volley hands it over. */
  datatype NetworkResponse = NetworkResponse(statusCode: int, data: Option<Bytes>, headers: StringMap)

  /** A transport failure, possibly carrying the response that came with it. */
  datatype VolleyError = VolleyError(id: nat, networkResponse: Option<NetworkResponse>)

  /** Volley's `Response<String>`: a parsed body (`result`) or an `error`. */
  datatype ParsedResponse = ParsedResponse(result: Option<string>, error: Option<VolleyError>)

  /** The inherited behaviour of Volley's `Request`/`StringRequest`, used where the source
      calls `super`. `defaultBody` receives what the request's own `getParams()` returns,
      because Volley's `getBody()` encodes the parameters it obtains through that
      overridable method. */
  datatype Transport = Transport(
    defaultHeaders: StringMap,
    defaultParams: Option<StringMap>,
    defaultBody: Option<StringMap> -> Option<Bytes>,
    defaultBodyContentType: string,
    parseString: NetworkResponse -> ParsedResponse,
    parseError: VolleyError -> VolleyError)

  /** The `Handler` codecs. The request encoder is the one chosen for the request format,
      bound to the body object by `setObjectToPost`; the response decoder is the one
      chosen for the response format. */
  datatype Codecs = Codecs(
    acceptValue: ResponseFormat -> string,
    encodeBody: (RequestFormat, Obj, Option<string>) -> Outcome<Bytes>,
    bodyContentType: (RequestFormat, Obj, Option<string>) -> Outcome<string>,
    decode: (ResponseFormat, string, Option<Obj>) -> Outcome<Obj>)

  /** `Uri.parse(url).buildUpon()`, `Builder.appendQueryParameter` and
      `build().toString()`, over an abstract builder type. */
  datatype UriBuilder<!U> = UriBuilder(
    parse: string -> U,
    appendQueryParameter: (U, string, string) -> U,
    render: U -> string)
}

=== FILE: formats.dfy ===
/** The three enumerations nested in `BaseRequest`: the HTTP method, the format of
    the request body and the format of the expected response. */
module Formats {
  import opened JavaModel

  datatype RequestMethod = GET | POST | PATCH | DELETE | PUT | HEAD | OPTIONS | TRACE

  datatype RequestFormat = JSON | XML | JSON_HAL | TEXT | MULTIPART

  datatype ResponseFormat = JSON | XML | JSON_HAL | TEXT

  /** `Enum.name()` of a request format. */
  function RequestName(f: RequestFormat): string {
    match f
    case JSON => "JSON"
    case XML => "XML"
    case JSON_HAL => "JSON_HAL"
    case TEXT => "TEXT"
    case MULTIPART => "MULTIPART"
  }

  /** `Enum.name()` of a response format. */
  function ResponseName(f: ResponseFormat): string {
    match f
    case JSON => "JSON"
    case XML => "XML"
    case JSON_HAL => "JSON_HAL"
    case TEXT => "TEXT"
  }

  /** `ResponseFormat.valueOf(name)`: the constant with that name, or `Threw` (Java's
      IllegalArgumentException) for a name that is not one of them. */
  function ResponseValueOf(name: string): (r: Outcome<ResponseFormat>)
    ensures forall f: ResponseFormat :: ResponseName(f) == name ==> r == Returned(f)
    ensures r.Returned? ==> ResponseName(r.value) == name
    ensures r.Threw? ==> r.fault == IllegalArgument
  {
    if name == "JSON" then Returned(ResponseFormat.JSON)
    else if name == "XML" then Returned(ResponseFormat.XML)
    else if name == "JSON_HAL" then Returned(ResponseFormat.JSON_HAL)
    else if name == "TEXT" then Returned(ResponseFormat.TEXT)
    else
      assert forall f: ResponseFormat :: ResponseName(f) != name;
      Threw(IllegalArgument)
  }

  /** `RequestFormat.toResponse()`: a multipart request expects a JSON response (the
      source logs that multipart responses are unsupported); every other format expects
      the response format of the same name, looked up with `valueOf(name())`. */
  function ToResponse(f: RequestFormat): (r: ResponseFormat)
    ensures f == RequestFormat.MULTIPART ==> r == ResponseFormat.JSON
    ensures f != RequestFormat.MULTIPART ==> ResponseName(r) == RequestName(f)
  {
    match f
    case MULTIPART => ResponseFormat.JSON
    case _ =>
      match ResponseValueOf(RequestName(f))
      case Returned(r) => r
      case Threw(_) => assert false; ResponseFormat.JSON
  }
}

=== FILE: java_model.dfy ===
/** The slice of the Java runtime that the request object leans on: nullable
    references, thrown exceptions, byte arrays and `HashMap<String, String>`
    with its `put`, `remove` and `putAll`.
 */
module JavaModel {

  /** A nullable reference: `None` stands for Java's `null`. */
  datatype Option<+T> = None | Some(value: T) {

    /** The value, or `default` when the reference is null. */
    function GetOr(default: T): T {
      match this
      case Some(v) => v
      case None => default
    }
  }

  /** The exceptions the modelled code can raise or catch. */
  datatype Fault =
    | NullPointer                // a method invoked on a null reference
    | UnsupportedEncoding        // java.io.UnsupportedEncodingException
    | IllegalArgument            // java.lang.IllegalArgumentException
    | Raised(code: nat)          // any other exception from a collaborator

  /** How a Java call ends: it returns a value or it throws. */
  datatype Outcome<+T> = Returned(value: T) | Threw(fault: Fault)

  /** An opaque Java object (a body object, a class specifier), known only by identity. */
  datatype Obj = Obj(id: nat)

  /** Java's signed `byte`. */
  newtype byte = x: int | -128 <= x < 128

  type Bytes = seq<byte>

  /** `Map<String, String>` with non-null keys and values. */
  type StringMap = map<string, string>

  /** `r` agrees with `m` on every key other than `k`: same presence, same value. */
  ghost predicate AgreeExcept(m: StringMap, r: StringMap, k: string) {
    forall j :: j != k ==> (j in m <==> j in r) && (j in m ==> m[j] == r[j])
  }

  /** `r` is `base` overridden by `top`: the keys of both, and `top` wins on a collision. */
  ghost predicate IsOverlay(base: StringMap, top: StringMap, r: StringMap) {
    && r.Keys == base.Keys + top.Keys
    && (forall k :: k in top ==> r[k] == top[k])
    && (forall k :: k in base && k !in top ==> r[k] == base[k])
  }

  /** `order` lists every key of `m` exactly once: one pass of `m.entrySet()`. */
  ghost predicate Enumerates(order: seq<string>, m: StringMap) {
    && (forall k :: k in order <==> k in m)
    && (forall i, j :: 0 <= i < j < |order| ==> order[i] != order[j])
  }

  /** `HashMap.putAll`: the receiver overridden by the argument. */
  function PutAll(m: StringMap, arg: StringMap): (r: StringMap)
    ensures IsOverlay(m, arg, r)
  {
    m + arg
  }

  /** `HashMap.putAll` as the JDK runs it: one `put` per entry of the argument, in the
      order its entry set yields them. */
  function PutEntries(m: StringMap, arg: StringMap, order: seq<string>): StringMap
    requires forall k :: k in order ==> k in arg
    decreases |order|
  {
    if order == [] then m
    else PutEntries(m[order[0] := arg[order[0]]], arg, order[1..])
  }

  /** The entries of `arg` whose keys the sequence `order` visits. */
  function Visited(arg: StringMap, order: seq<string>): StringMap
    requires forall k :: k in order ==> k in arg
  {
    map k | k in order :: arg[k]
  }

  /** Putting the entries of a prefix of the iteration one by one overrides `m` by exactly
      those entries, whatever the order and even if a key repeats. */
  lemma {:induction false} PutEntriesOverrides(m: StringMap, arg: StringMap, order: seq<string>)
    requires forall k :: k in order ==> k in arg
    ensures PutEntries(m, arg, order) == m + Visited(arg, order)
    decreases |order|
  {
    if order != [] {
      var a := order[0];
      var rest := order[1..];
      assert forall k :: k in rest ==> k in order;
      PutEntriesOverrides(m[a := arg[a]], arg, rest);
      var lhs := m[a := arg[a]] + Visited(arg, rest);
      var rhs := m + Visited(arg, order);
      assert forall k :: k in order <==> k == a || k in rest;
      assert lhs.Keys == rhs.Keys;
      assert forall k :: k in lhs ==> lhs[k] == rhs[k];
    }
  }

  /** Entry-by-entry insertion in any iteration order of the argument yields `PutAll`:
      modelling `putAll` as map override loses nothing about the order. */
  lemma {:induction false} PutAllIsOrderIndependent(m: StringMap, arg: StringMap, order: seq<string>)
    requires Enumerates(order, arg)
    ensures PutEntries(m, arg, order) == PutAll(m, arg)
  {
    PutEntriesOverrides(m, arg, order);
    assert Visited(arg, order) == arg;
  }
}
